=== FILE: README.md ===
# ContentBox in Dafny

A model of ContentBox, a manager for pop-up boxes over a web page. Each box has a title bar, an action bar of links and a resize handle. The model covers five modules:

- **JsValues** (`js_values.dfy`): the JavaScript semantics the widget depends on. That is truthiness and `||` for option defaults, `String(n)` and `Number(s)` for numbers kept as dataset text, and `join`/`split`.
- **Elements** (`elements.dfy`): the helper `createElement` and the helper `clearDataset`. `createElement` rejects a tag that is not a string, joins array-valued attributes with `;` and sets each attribute. `clearDataset` deletes every `data-*` entry of an element. An element is modelled by the tag and attribute texts it was given.
- **Move** (`move.dfy`): the move handlers of one box, as the class `BoxFrame` over its title bar's dataset and its style `zIndex`/`top`/`left`.
  - `onDown` saves the z-index and the box-to-pointer offset as text, sets `active` to `'true'` and raises the box to 20000.
  - `onMove` does nothing unless `active` is `'true'`. Otherwise it places the box at the pointer plus the offset, clamped on each axis: first not below 0, then not past the window's inner size.
  - `onUp` restores the saved z-index and clears the dataset.
  - The resize handle's mouse-down writes the same title-bar fields, so it starts a move. Nothing in the widget changes a box's width or height.
  - The pure functions `Press`, `Drag` and `Release` specify the handlers. The lemmas about them state the clamping bounds, exact translation, restoring the z-index, and idempotence.
- **Options** (`options.dfy`): the defaults of `create` and the action-bar loop.
  - `movable || true`, `scalable || true`, `height || 480`, `width || 680`.
  - The loop rewrites each button descriptor in place: a falsy href becomes `javascript:void(0);` and an array class is joined with spaces. It then builds one link per descriptor, after the built-in Close link.
- **Registry** (`registry.dfy`): the manager and the shared instance.
  - The manager holds the box containers in document order (what `boxes()` returns) and `current`.
  - `current` holds either the record `create` stored or a container element `setCurrent` picked. Both kinds are modelled (`Registry.Current`).
  - With the collection read (`boxes()` called), `setCurrent` picks null for an empty collection. For a truthy id that indexes a box it picks that box's container; otherwise it picks the last container. As written, it always stores null (see Findings).
  - `create` makes the new box's record current. With the collection read (`boxes()` called), it numbers a box by the count of boxes and stacks it at 10000 plus that count. As written, every box gets 0 and 10000 (see Findings).
  - With the code's defects corrected, `close` removes a box and, when that box was current, picks a new current container. As written, it calls `setCurrent()` (which gives null) before the removal, and only when `current` is a record with the closed box's number; a container stored by `setCurrent` never passes that test (see Findings).
  - The invariant `WellFormed` says that `current` is null exactly when there are no boxes, and otherwise belongs to a live box. `create` keeps it. `setCurrent` and `close` keep it only once the defects in Findings are fixed; as written, `setCurrent` breaks it whenever a box is open (`Registry.SetCurrentAndInvariant`). `Registry.ContentBox.SetCurrent` and `Registry.ContentBox.Close` model the corrected versions.

Pointer coordinates and the window's inner size are parameters of the handlers. The position a box starts at is a parameter of `BoxFrame`'s constructor. Event registration is represented by calling the handlers in sequence. The second registration of `onMove` and `onUp` beside the resize handle (lines 293-294) passes the same listener objects for the same events, which `addEventListener` ignores, so each handler runs once per event.

What the code does, and therefore the model, in places where a reader might expect otherwise:
- A z-index is 10000 plus a count of boxes: the count of live boxes once `boxes()` is called, and 0 as written. No scan of the document is done.
- A box's number is that same count, not the largest number plus one, so it can repeat a live box's number after an earlier box is closed.
- Pressing a box raises it to 20000 rather than swapping z-indices.
- The clamp is against `innerWidth`/`innerHeight`, without scroll offsets.
- There is no resize: no size floors and no change of width or height.
- No default title is set.
- `close` acts on the instance's last-created box, not on the current one.

## Model

| member | source | states |
|---|---|---|
| `Elements.CreateElement` | js/ContentBox.js:15-33 | No element when the tag is not a string. A TypeError when an attribute value is null or undefined. Otherwise an element with that tag and exactly the given attribute names, each set to its text, with arrays joined by `;` |
| `Elements.ListAttributeSplits` | js/ContentBox.js:26-27 | An array-valued attribute joined with `;` splits back into its items when the list is non-empty and no item contains `;` |
| `Elements.ClearDataset` | js/ContentBox.js:38-47 | Returns false and changes nothing when the element has no dataset object. Otherwise the dataset ends empty |
| `JsValues.NumberOfString` | js/ContentBox.js:171-173 | `Number(String(n)) == n`: a z-index or offset saved as dataset text reads back as the same integer |
| `JsValues.SplitJoin` | js/ContentBox.js:27 | Splitting a joined list on its one-character separator gives the list back when the list is non-empty and no item contains the separator |
| `Move.Clamp` | js/ContentBox.js:199-206 | A box no larger than the window ends wholly inside it. A position already inside is kept. A box larger than the window is pinned at `extent - size` |
| `Move.ClampNearest` | js/ContentBox.js:199-206 | Among the positions that keep a fitting box inside, the clamp picks one nearest the target |
| `Move.Press` | js/ContentBox.js:167-183 | The session becomes active and consistent and the box sits at z-index 20000. The saved z-index and offsets read back as the old z-index and the box-minus-pointer offsets. Position and size are unchanged |
| `Move.Drag` | js/ContentBox.js:185-210 | Nothing changes unless `active` is `'true'`. The dataset, z-index and size never change. In an active consistent session, a box that fits the window on an axis stays inside it on that axis |
| `Move.Release` | js/ContentBox.js:212-217 | The dataset is emptied and the session inactive. Position and size are unchanged. A saved numeric z-index is restored; with no saved z-index (NaN), the z-index is left as it is |
| `Move.DragAllKeepsSession` | js/ContentBox.js:185-210 | Any run of mouse-moves leaves the session data, the z-index and the size unchanged |
| `Move.DragFollowsPointer` | js/ContentBox.js:171-209 | However many moves came before, each move of a session puts the box at its position at mouse-down plus the pointer's displacement since then, clamped |
| `Move.PressThenDrag` | js/ContentBox.js:172-197 | After a press, a move puts the box at its start position plus the pointer's displacement, clamped. When that position is inside the window it is exact |
| `Move.SessionRestoresZIndex` | js/ContentBox.js:171-216 | Press, any number of moves, then release: the box is back at its z-index from before the press, and no session data remains |
| `Move.HandlersKeepConsistent` | js/ContentBox.js:167-217 | Every handler keeps an active session's saved numbers readable |
| `Move.RepeatedEventsHarmless` | js/ContentBox.js:185-217 | A second mouse-move at the same pointer, or a second mouse-up, changes nothing |
| `Move.MoveExample` | js/ContentBox.js:185-210 | A box at (50, 50) is pressed at (100, 100) and moved to (120, 90). It lands at left 70, top 40 |
| `Move.BoxFrame.constructor` | js/ContentBox.js:143-159 | A laid-out box with an empty title-bar dataset |
| `Move.BoxFrame.OnDown` | js/ContentBox.js:167-183 | The new state is `Press` of the old state at the pointer. The session invariant is kept |
| `Move.BoxFrame.OnResizeHandleDown` | js/ContentBox.js:276-294 | The same new state as a title-bar mouse-down (`Press`): it starts a move and leaves the size alone |
| `Move.BoxFrame.OnMove` | js/ContentBox.js:185-210 | The new state is `Drag` of the old state at the pointer in the given window. The clamp is done step by step |
| `Move.BoxFrame.OnUp` | js/ContentBox.js:212-217 | The new state is `Release` of the old state. The dataset is cleared through `ClearDataset` |
| `Options.Resolve` | js/ContentBox.js:125-130 | `movable` and `scalable` always end truthy. A falsy height or width becomes 480 or 680, and a truthy one is kept as given |
| `Options.ResolveIdempotent` | js/ContentBox.js:125-130 | Applying the defaults twice is the same as applying them once |
| `Options.Normalise` | js/ContentBox.js:245-254 | A rewritten descriptor keeps its text and always has a truthy href: its own when truthy, else `javascript:void(0);`. Its class is never an array afterwards |
| `Options.MakeCloseLink` | js/ContentBox.js:227-233 | The built-in link has class `cBox-button cBox-close`, href `javascript:void(0);` and text `Close` |
| `Options.ButtonClasses` | js/ContentBox.js:243-259 | A button without a class gets `cBox-button`. An array class gives `cBox-button ` followed by the items joined with spaces, which, for a non-empty array whose items hold no space, splits back into `cBox-button` and the items. A falsy href becomes `javascript:void(0);`. The link's markup is the button's text, and empty for a null text |
| `Options.BuildButtons` | js/ContentBox.js:243-263 | Each descriptor is rewritten in place to its normal form, and one link per descriptor is built in order from the rewritten descriptor |
| `Registry.CurrentIdComparison` | js/ContentBox.js:328 | A box number never loosely equals a container's id `'cBox-N'`, which reads as NaN. It equals a record's `.id` exactly when the numbers are equal |
| `Registry.SelectCurrent` | js/ContentBox.js:72-83 | The result is null exactly when the collection is empty, and otherwise is one of its containers. A non-zero id that indexes the collection picks that container; anything else, including 0 or no id, picks the last one |
| `Registry.SelectCurrentAsWritten` | js/ContentBox.js:72-83 | As written (`this.boxes.length` is the function's arity 0), the result is always null |
| `Registry.NewBox` | js/ContentBox.js:138-142 | The new box is numbered by the count of boxes and stacked at 10000 plus that count, with the resolved height and width. It is not one of the boxes already there |
| `Registry.NewBoxAsWritten` | js/ContentBox.js:138-142 | As written (`existingBoxes.length` is 0), every box is numbered 0 and stacked at 10000 |
| `Registry.AfterCreate` | js/ContentBox.js:299-300 | The new box's container is appended last and the new box's record becomes current |
| `Registry.CreatePreservesWellFormed` | js/ContentBox.js:119-307 | `create` keeps the manager invariant: current is null iff there are no boxes, current is a live box, containers are distinct, and z-index is 10000 plus the number |
| `Registry.CreateStacksOnTop` | js/ContentBox.js:139-140 | With the collection read, and while boxes are numbered by position (no box closed ahead of a later one), a new box's number and z-index exceed every live box's |
| `Registry.SetCurrentAndInvariant` | js/ContentBox.js:72-83 | As written, `setCurrent` breaks the manager invariant whenever a box is open. Corrected, it keeps it |
| `Registry.AfterCreateAsWritten` | js/ContentBox.js:138-140 | As written, the container of a box numbered 0 and stacked at 10000 is appended last, and its record becomes current |
| `Registry.AsWrittenBoxesCollide` | js/ContentBox.js:123-140 | As written, two created boxes share number 0 and z-index 10000, and `setCurrent` then clears `current` although both are live |
| `Registry.TwoBoxesNumbered` | js/ContentBox.js:139-140 | With the collection read, two created boxes get 0 and 1, stack in creation order, and `setCurrent()` picks the second |
| `Registry.Detach` | js/ContentBox.js:330 | Removing a container keeps every other box and only those, in their order. A container not in the document leaves it as it is; among distinct containers exactly the one position is cut out |
| `Registry.CloseStep` | js/ContentBox.js:320-331 | With the code's defects corrected: throws, changing nothing, when current is null or the box's container is gone. Otherwise it removes exactly that box. When current belongs to the closed box, the container `setCurrent()` picks from the rest becomes current; otherwise current is left alone |
| `Registry.ClosePreservesWellFormed` | js/ContentBox.js:320-331 | The corrected `close` keeps the manager invariant and cuts out exactly the closed box's position. Closing the current box makes the last remaining container current, or null when none remain |
| `Registry.CloseBeforeRemoval` | js/ContentBox.js:328-330 | With `setCurrent` corrected but run before the removal, as in the code: when current belongs to the closed box, the fallback is picked from the collection that still holds it; otherwise current is kept. A successful close removes the container, the others kept in order |
| `Registry.CloseBeforeRemovalKeepsClosedBox` | js/ContentBox.js:328-330 | With two boxes and the second current, picking the fallback before the removal leaves the closed box's container current and breaks the invariant. Picking it afterwards makes the first box current |
| `Registry.CloseComparingIds` | js/ContentBox.js:328-330 | With `setCurrent` corrected and run after the removal, but with the code's test of the number against `.id`: a container that `setCurrent` stored is never replaced |
| `Registry.IdComparisonStrandsCurrent` | js/ContentBox.js:320-331 | Create A, create B, close B, close A, with only the test as written: `current` is left on A's removed container with no box open, breaking the invariant. The corrected `close` leaves it null |
| `Registry.CloseAsWritten` | js/ContentBox.js:320-331 | The code as written: null current, or a container no longer in the document, throws with the boxes unchanged. Otherwise the container is removed, the others kept in order. A record with the closed box's number makes `setCurrent()` clear `current`, before the removal; when the numbers differ, and always when `current` is a container, `current` is kept |
| `Registry.AsWrittenCloseStrandsBox` | js/ContentBox.js:320-331 | As written, create A, create B, close B, then close A. The first close clears `current`, so the second throws and A's container stays in the document |
| `Registry.CreateCreateCloseClose` | js/ContentBox.js:119-331 | Create A, create B, close, close. The first close removes B and makes A's container current. The second close still targets B and throws, changing nothing |
| `Registry.EarlyCloseReusesId` | js/ContentBox.js:139-140 | After an earlier box is closed, the next box gets the number and z-index of a box still open |
| `Registry.ContentBox.constructor` | js/ContentBox.js:53-114 | The first construction gives an empty manager plus one `create` with the given options |
| `Registry.ContentBox.SetCurrent` | js/ContentBox.js:72-83 | `current` becomes the container `SelectCurrent` picks from the boxes, or null. The manager invariant is kept and nothing else changes |
| `Registry.ContentBox.Create` | js/ContentBox.js:119-307 | The state becomes `AfterCreate` and `box` is the new box. The button descriptors are rewritten, and the links are the Close link followed by one link per button |
| `Registry.ContentBox.Close` | js/ContentBox.js:320-331 | The state and the thrown flag are those of the corrected `CloseStep`. `box` is unchanged and the invariant is kept |

## Left out

- DOM construction: the container, title bar, action bar, list items and resize-handle elements, the title bar's `innerHTML` (the title is never defaulted in the code) and CSS text. For links, the values given to `setAttribute` and the text assigned to `innerHTML` are modelled; the parsing of that text as HTML is not.
- The starting position `innerHeight / 2 - height / 2` is fractional pixel arithmetic. `BoxFrame`'s constructor takes the position, size and z-index as laid out by the browser.
- Event-listener registration and `stopPropagation`/`preventDefault`/`cancelBubble`/`returnValue`. The handlers are methods called in sequence.
- The singleton trick that reassigns the constructor and its prototype. A second `new ContentBox(...)` returns the same instance without creating a box; this is not modelled.
- The trick makes the first box's record live on the prototype object, and later records on the instance. `Registry.ContentBox.Close` therefore takes the record it acts on as a parameter rather than reading it from `box`.
- `console.log`/`console.error` and the host callbacks `beforeCreate`, `afterCreate` and `beforeClose`. These are opaque host code.
- `getCurrent` is a read of `current` and has no member of its own.
- A container element is modelled by its box record and element handle; of its attributes only the id text `'cBox-N'` that `close` reads is modelled.
- `Registry.SelectCurrent`: the id is absent or an integer, as its only caller passes none. String ids are not modelled; an HTMLCollection would look them up by element id.
- The handlers read the container's `offsetTop`/`offsetLeft` and write its style `top`/`left`. The model treats them as the same values; margins, borders or a positioned ancestor would make them differ.
- JavaScript numbers are doubles. The model uses unbounded integers, so NaN, fractional pointer coordinates, and precision beyond 2^53 are not modelled. A NaN offset or saved z-index is modelled as leaving the style value unchanged, since the style ignores the text `NaN`.
- `JsValues.ParseNumber` covers only what `Number` does on the empty string and on optionally signed decimal digits. Whitespace, `+`, fractions, exponents, hex and `Infinity` are not modelled. Only text written by `DecimalString` is parsed.
- Array items are modelled as strings. `null` and `undefined` items, which `join` turns into empty strings, are not modelled.
- `Options.Resolve`: `create` writes the defaults back into the caller's `options` object; `Resolve` returns a new value instead. Passing the same object to a later `create` is harmless, since resolving resolved options changes nothing (`Options.ResolveIdempotent`).
- `Options.BuildButtons`: `options.buttons` is an object visited with `for…in`, which also visits inherited enumerable keys in the engine's property order. The model takes an array of descriptors in index order.
- `Options.BuildButtons`: a `null` or `undefined` descriptor makes `b.href` throw a TypeError. By then `this.box` is set, but the container is neither appended nor made current. The `Button` datatype has no such descriptor, so this path is not modelled.
- The rewrite of the caller's `properties` object inside `createElement` is not modelled. Every caller passes a fresh object literal, so the rewrite is never observed.

## Findings

| source | as written | input that shows it | evidently intended | confidence | as-written member | corrected member |
|---|---|---|---|---|---|---|
| js/ContentBox.js:74-82 | `this.boxes.length` reads the arity (0) of the uncalled function `boxes`, so `setCurrent` always sets `current` to null; a later `close` then throws at `getCurrent().id` | create A, create B, close B, then A's Close button | `this.boxes().length`: null only when no box is open, otherwise a live container | high (not executed) | `Registry.AsWrittenCloseStrandsBox` | `Registry.SelectCurrent` |
| js/ContentBox.js:123-140 | `existingBoxes.length` is the same arity 0, so every box gets number 0 and z-index 10000 | two calls of `create` | number and z-index taken from the count of open boxes, so that, while no box has been closed ahead of a later one, a new box is numbered apart from the others and stacks above them (an earlier close makes the count repeat a live number: `Registry.EarlyCloseReusesId`) | high (not executed) | `Registry.AsWrittenBoxesCollide` | `Registry.CreateStacksOnTop` |
| js/ContentBox.js:328-330 | `setCurrent()` runs before the container is removed, so its fallback to the last container picks the box being closed; this shows only once the first row's fix is in, since as written `setCurrent()` gives null | boxes A and B with B current, then `close` on B | pick the fallback from the boxes left after removal, so `current` stays a live box | medium (not executed) | `Registry.CloseBeforeRemovalKeepsClosedBox` | `Registry.ClosePreservesWellFormed` |
| js/ContentBox.js:328 | `this.box.id == this.getCurrent().id` compares a box number with the id text `'cBox-N'` once `setCurrent` has stored a container, which is never equal, so closing the current box then leaves `current` on its removed container; this shows once the first and third rows' fixes are in | create A, create B, close B, then A's Close button | test whether `current` belongs to the closed box (compare containers), so `current` is null once no box is open | medium (not executed) | `Registry.IdComparisonStrandsCurrent` | `Registry.ClosePreservesWellFormed` |

=== FILE: elements.dfy ===
/**
 * The two DOM helpers of ContentBox: `createElement`, which checks the tag,
 * joins array-valued attributes with ';' and hands every attribute to
 * `setAttribute`, and `clearDataset`, which deletes every `data-*` entry of
 * an element. A created element is modelled by the values it was given.
 */
module Elements {
  import opened JsValues

  /** An element as `createElement` leaves it: its tag and attribute texts. */
  datatype Element = Element(tag: string, attributes: map<string, string>)

  /**
   * What a call of `createElement` produces: no element when the tag is not a
   * string (an error is logged and `undefined` returned), a thrown TypeError
   * when an attribute value is `undefined` or `null` (reading its
   * `constructor` fails), or the element.
   */
  datatype Creation = Rejected | Threw | Created(element: Element)

  /** The text `setAttribute` stores for a property value: an array is joined with ';' first. */
  function AttributeText(v: Value): string {
    ToStr(if v.List? then Str(Join(v.items, ';')) else v)
  }

  /** An array-valued attribute, such as the box's style declarations, can be split back on ';'. */
  lemma ListAttributeSplits(items: seq<string>)
    requires |items| > 0
    requires forall i :: 0 <= i < |items| ==> ';' !in items[i]
    ensures Split(AttributeText(List(items)), ';') == items
  {
    SplitJoin(items, ';');
  }

  predicate HasNullish(properties: map<string, Value>) {
    exists k :: k in properties && Nullish(properties[k])
  }

  method CreateElement(tag: Value, properties: Option<map<string, Value>>) returns (r: Creation)
    ensures r.Rejected? <==> !tag.Str?
    ensures r.Threw? <==> tag.Str? && properties.Some? && HasNullish(properties.value)
    ensures r.Created? ==> r.element.tag == tag.s
    ensures r.Created? && properties.None? ==> r.element.attributes == map[]
    ensures r.Created? && properties.Some? ==>
      r.element.attributes.Keys == properties.value.Keys &&
      forall k :: k in properties.value ==> r.element.attributes[k] == AttributeText(properties.value[k])
  {
    if !tag.Str? {
      return Rejected;
    }
    if properties.None? {
      return Created(Element(tag.s, map[]));
    }
    var props := properties.value;
    var remaining := props.Keys;
    var attributes: map<string, string> := map[];
    while remaining != {}
      invariant remaining <= props.Keys
      invariant attributes.Keys == props.Keys - remaining
      invariant forall k :: k in attributes ==> !Nullish(props[k]) && attributes[k] == AttributeText(props[k])
      decreases remaining
    {
      var k :| k in remaining;
      if Nullish(props[k]) {
        return Threw;
      }
      attributes := attributes[k := AttributeText(props[k])];
      remaining := remaining - {k};
    }
    return Created(Element(tag.s, attributes));
  }

  /** An element as far as its `dataset` goes; `None` when it has no dataset object. */
  class HtmlElement {
    var dataset: Option<map<string, string>>

    constructor (dataset: Option<map<string, string>>)
      ensures this.dataset == dataset
    {
      this.dataset := dataset;
    }
  }

  /**
   * `clearDataset`: returns false, changing nothing, when the element has no
   * dataset object; otherwise deletes its entries one by one (the source
   * then returns undefined, reported here as true).
   */
  method ClearDataset(e: HtmlElement) returns (hasDataset: bool)
    modifies e
    ensures hasDataset == old(e.dataset).Some?
    ensures e.dataset == if hasDataset then Some(map[]) else old(e.dataset)
  {
    if e.dataset.None? {
      return false;
    }
    while e.dataset.value.Keys != {}
      invariant e.dataset.Some?
      decreases e.dataset.value.Keys
    {
      var k :| k in e.dataset.value;
      e.dataset := Some(e.dataset.value - {k});
    }
    return true;
  }
}

=== FILE: js_values.dfy ===
/**
 * The slice of JavaScript value semantics that ContentBox relies on:
 * truthiness and `||` (option defaults), `String(n)` and `Number(s)` for the
 * integers the drag handlers keep in an element's dataset, and
 * `Array.prototype.join` for attribute lists.
 */
module JsValues {

  datatype Option<T> = None | Some(value: T)

  /**
   * A JavaScript value as far as the widget inspects it. Numbers are
   * integers: pixel offsets, sizes and z-indices. An array is kept as the
   * strings it holds.
   */
  datatype Value =
    | Undefined
    | Null
    | Bool(b: bool)
    | Num(n: int)
    | Str(s: string)
    | List(items: seq<string>)
    | Obj

  /** ECMAScript ToBoolean. */
  predicate Truthy(v: Value) {
    match v
    case Undefined => false
    case Null => false
    case Bool(b) => b
    case Num(n) => n != 0
    case Str(s) => s != ""
    case List(_) => true
    case Obj => true
  }

  /** `undefined` or `null`, the values `x != undefined` rejects. */
  predicate Nullish(v: Value) {
    v.Undefined? || v.Null?
  }

  /** `a || b`: the left operand when it is truthy, else the right one. */
  function Or(a: Value, b: Value): Value {
    if Truthy(a) then a else b
  }

  // ---------------------------------------------------------------------------
  // Decimal text of integers

  predicate IsDigit(c: char) {
    '0' <= c <= '9'
  }

  predicate AllDigits(s: string) {
    forall i :: 0 <= i < |s| ==> IsDigit(s[i])
  }

  function DigitChar(d: int): (c: char)
    requires 0 <= d < 10
    ensures IsDigit(c)
  {
    ('0' as int + d) as char
  }

  function DigitValue(c: char): (d: nat)
    requires IsDigit(c)
    ensures d < 10
  {
    c as int - '0' as int
  }

  /** The decimal digits of `n`, most significant first, without leading zeros. */
  function Digits(n: nat): (s: string)
    ensures |s| > 0 && AllDigits(s)
    ensures |s| > 1 ==> s[0] != '0'
  {
    if n < 10 then [DigitChar(n)] else Digits(n / 10) + [DigitChar(n % 10)]
  }

  /** `String(n)` for an integer `n`. */
  function DecimalString(n: int): (s: string)
    ensures |s| > 0
  {
    if n < 0 then "-" + Digits(-n) else Digits(n)
  }

  /** The value of a string of decimal digits ("" reads as 0). */
  function ParseDigits(s: string): nat
    requires AllDigits(s)
  {
    if s == [] then 0 else ParseDigits(s[..|s| - 1]) * 10 + DigitValue(s[|s| - 1])
  }

  /**
   * `Number(s)` on a string: `None` stands for NaN. The empty string reads as
   * 0, an optional leading '-' is followed by decimal digits; any other text
   * is NaN.
   */
  function ParseNumber(s: string): Option<int> {
    if s == "" then Some(0)
    else if s[0] == '-' then
      if |s| > 1 && AllDigits(s[1..]) then Some(-(ParseDigits(s[1..]) as int)) else None
    else if AllDigits(s) then Some(ParseDigits(s))
    else None
  }

  /** ToString of a value, as string concatenation and setAttribute apply it. */
  function ToStr(v: Value): string {
    match v
    case Undefined => "undefined"
    case Null => "null"
    case Bool(b) => if b then "true" else "false"
    case Num(n) => DecimalString(n)
    case Str(s) => s
    case List(items) => Join(items, ',')
    case Obj => "[object Object]"
  }

  lemma {:induction false} ParseDigitsOfDigits(n: nat)
    ensures ParseDigits(Digits(n)) == n
  {
    if n >= 10 {
      var s := Digits(n);
      assert s[..|s| - 1] == Digits(n / 10);
      ParseDigitsOfDigits(n / 10);
    }
  }

  /** `Number(String(n)) == n`: a number stored as text reads back unchanged. */
  lemma NumberOfString(n: int)
    ensures ParseNumber(DecimalString(n)) == Some(n)
  {
    var s := DecimalString(n);
    if n < 0 {
      assert s[1..] == Digits(-n);
      ParseDigitsOfDigits(-n);
    } else {
      ParseDigitsOfDigits(n);
    }
  }

  // ---------------------------------------------------------------------------
  // Array.prototype.join and String.prototype.split on a one-character separator

  /** `items.join(sep)`: the empty array joins to "". */
  function Join(items: seq<string>, sep: char): string {
    if |items| == 0 then ""
    else if |items| == 1 then items[0]
    else items[0] + [sep] + Join(items[1..], sep)
  }

  /** `s.split(sep)`: always at least one piece; "" splits to [""]. */
  function Split(s: string, sep: char): (pieces: seq<string>)
    ensures |pieces| > 0
  {
    if s == [] then [""]
    else
      var rest := Split(s[1..], sep);
      if s[0] == sep then [""] + rest else [[s[0]] + rest[0]] + rest[1..]
  }

  lemma {:induction false} SplitWithout(a: string, sep: char)
    requires sep !in a
    ensures Split(a, sep) == [a]
  {
    if a != [] {
      SplitWithout(a[1..], sep);
      assert [a[0]] + a[1..] == a;
    }
  }

  lemma {:induction false} SplitAfter(a: string, sep: char, b: string)
    requires sep !in a
    ensures Split(a + [sep] + b, sep) == [a] + Split(b, sep)
  {
    if a == [] {
      assert a + [sep] + b == [sep] + b;
      assert ([sep] + b)[1..] == b;
    } else {
      assert (a + [sep] + b)[1..] == a[1..] + [sep] + b;
      SplitAfter(a[1..], sep, b);
      assert [a[0]] + a[1..] == a;
    }
  }

  /** Splitting a joined list on its separator gives the list back. */
  lemma {:induction false} SplitJoin(items: seq<string>, sep: char)
    requires |items| > 0
    requires forall i :: 0 <= i < |items| ==> sep !in items[i]
    ensures Split(Join(items, sep), sep) == items
  {
    if |items| == 1 {
      SplitWithout(items[0], sep);
    } else {
      SplitJoin(items[1..], sep);
      SplitAfter(items[0], sep, Join(items[1..], sep));
      assert [items[0]] + items[1..] == items;
    }
  }
}

=== FILE: move.dfy ===
/**
 * The move handlers a box gets in `create`: mouse-down on the title bar
 * (`onDown`) saves the box's z-index and the offset between box and pointer
 * in the title bar's dataset, marks the session active and raises the box to
 * z-index 20000; every window mouse-move (`onMove`) places the box at the
 * pointer plus that offset, clamped to the window; every window mouse-up
 * (`onUp`) restores the saved z-index and clears the dataset.
 *
 * The dataset holds strings, so the saved numbers go through `String` and
 * back through `Number`. Pointer coordinates and the window's inner size are
 * inputs; the box's offsetTop/offsetLeft are its `top`/`left`.
 */
module Move {
  import opened JsValues
  import Elements

  /** The z-index a box is raised to while it is pressed. */
  const RaisedZIndex := 20000

  datatype Pointer = Pointer(clientX: int, clientY: int)
  datatype Viewport = Viewport(innerWidth: nat, innerHeight: nat)

  /** One box's move state: its title bar's dataset and the box's style and size. */
  datatype Frame = Frame(dataset: map<string, string>, zIndex: int, top: int, left: int, height: nat, width: nat)

  /** `titleBar.dataset.active === 'true'`. */
  predicate Active(f: Frame) {
    "active" in f.dataset && f.dataset["active"] == "true"
  }

  /** `Number(titleBar.dataset[key])`; a missing key is `undefined`, which reads as NaN. */
  function Number(data: map<string, string>, key: string): Option<int> {
    if key in data then ParseNumber(data[key]) else None
  }

  /** An active session carries numeric z-index and offsets. */
  predicate Consistent(f: Frame) {
    Active(f) ==>
      Number(f.dataset, "zIndex").Some? && Number(f.dataset, "diffTop").Some? && Number(f.dataset, "diffLeft").Some?
  }

  /**
   * One axis of `onMove`: first not below 0, then not past the window edge.
   * A box that fits is kept wholly inside; a position already inside is kept;
   * a box larger than the window is pinned to its far edge.
   */
  function Clamp(target: int, size: nat, extent: nat): (r: int)
    ensures size <= extent ==> 0 <= r && r + size <= extent
    ensures 0 <= target && target + size <= extent ==> r == target
    ensures extent < size ==> r == extent - size
  {
    var t := if target < 0 then 0 else target;
    if t + size > extent then extent - size else t
  }

  /** Of all positions that keep a fitting box inside, the clamp picks one nearest the target. */
  lemma ClampNearest(target: int, size: nat, extent: nat, p: int)
    requires size <= extent && 0 <= p && p + size <= extent
    ensures Abs(Clamp(target, size, extent) - target) <= Abs(p - target)
  {
  }

  function Abs(x: int): nat {
    if x < 0 then -x else x
  }

  /**
   * The new position on one axis: the pointer plus the saved offset, clamped.
   * A NaN offset gives the text "NaNpx", which the style ignores.
   */
  function Place(current: int, client: int, diff: Option<int>, size: nat, extent: nat): int {
    match diff
    case None => current
    case Some(d) => Clamp(client + d, size, extent)
  }

  /** `onDown` (and the resize handle's mouse-down) at pointer `p`. */
  function Press(f: Frame, p: Pointer): (r: Frame)
    ensures Active(r) && Consistent(r)
    ensures r.zIndex == RaisedZIndex
    ensures Number(r.dataset, "zIndex") == Some(f.zIndex)
    ensures Number(r.dataset, "diffTop") == Some(f.top - p.clientY)
    ensures Number(r.dataset, "diffLeft") == Some(f.left - p.clientX)
    ensures r.top == f.top && r.left == f.left && r.height == f.height && r.width == f.width
  {
    NumberOfString(f.zIndex);
    NumberOfString(f.top - p.clientY);
    NumberOfString(f.left - p.clientX);
    f.(dataset := f.dataset["zIndex" := DecimalString(f.zIndex)]
                           ["diffTop" := DecimalString(f.top - p.clientY)]
                           ["diffLeft" := DecimalString(f.left - p.clientX)]
                           ["active" := "true"],
       zIndex := RaisedZIndex)
  }

  /** `onMove` at pointer `p` in a window of size `v`. */
  function Drag(f: Frame, p: Pointer, v: Viewport): (r: Frame)
    ensures r.dataset == f.dataset && r.zIndex == f.zIndex && r.height == f.height && r.width == f.width
    ensures !Active(f) ==> r == f
    ensures Active(f) && Consistent(f) && f.height <= v.innerHeight ==>
      0 <= r.top && r.top + r.height <= v.innerHeight
    ensures Active(f) && Consistent(f) && f.width <= v.innerWidth ==>
      0 <= r.left && r.left + r.width <= v.innerWidth
  {
    if !Active(f) then f
    else
      f.(top := Place(f.top, p.clientY, Number(f.dataset, "diffTop"), f.height, v.innerHeight),
         left := Place(f.left, p.clientX, Number(f.dataset, "diffLeft"), f.width, v.innerWidth))
  }

  /**
   * `onUp`: the saved z-index comes back (a NaN one, when nothing was saved,
   * is ignored by the style and leaves the z-index as it is) and the dataset
   * is emptied.
   */
  function Release(f: Frame): (r: Frame)
    ensures r.dataset == map[] && !Active(r)
    ensures r.top == f.top && r.left == f.left && r.height == f.height && r.width == f.width
    ensures Number(f.dataset, "zIndex").Some? ==> r.zIndex == Number(f.dataset, "zIndex").value
    ensures Number(f.dataset, "zIndex").None? ==> r.zIndex == f.zIndex
  {
    var z := Number(f.dataset, "zIndex");
    f.(zIndex := if z.Some? then z.value else f.zIndex, dataset := map[])
  }

  /** The handlers over a run of mouse-moves, in order. */
  function DragAll(f: Frame, moves: seq<Pointer>, v: Viewport): Frame
    decreases |moves|
  {
    if moves == [] then f else DragAll(Drag(f, moves[0], v), moves[1..], v)
  }

  /** Moves never touch the session data or the z-index. */
  lemma {:induction false} DragAllKeepsSession(f: Frame, moves: seq<Pointer>, v: Viewport)
    ensures DragAll(f, moves, v).dataset == f.dataset
    ensures DragAll(f, moves, v).zIndex == f.zIndex
    ensures DragAll(f, moves, v).height == f.height && DragAll(f, moves, v).width == f.width
    decreases |moves|
  {
    if moves != [] {
      DragAllKeepsSession(Drag(f, moves[0], v), moves[1..], v);
    }
  }

  /**
   * After a press, a move places the box at its start position plus the
   * pointer's displacement, clamped; a displaced position already inside
   * the window is taken exactly.
   */
  lemma PressThenDrag(f: Frame, down: Pointer, p: Pointer, v: Viewport)
    ensures Drag(Press(f, down), p, v).top == Clamp(f.top + (p.clientY - down.clientY), f.height, v.innerHeight)
    ensures Drag(Press(f, down), p, v).left == Clamp(f.left + (p.clientX - down.clientX), f.width, v.innerWidth)
    ensures var t := f.top + (p.clientY - down.clientY);
      0 <= t && t + f.height <= v.innerHeight ==> Drag(Press(f, down), p, v).top == t
    ensures var l := f.left + (p.clientX - down.clientX);
      0 <= l && l + f.width <= v.innerWidth ==> Drag(Press(f, down), p, v).left == l
  {
    var g := Press(f, down);
    assert p.clientY + (f.top - down.clientY) == f.top + (p.clientY - down.clientY);
    assert p.clientX + (f.left - down.clientX) == f.left + (p.clientX - down.clientX);
  }

  /**
   * A whole session — press, any number of moves, release — leaves the box at
   * the z-index it had before and no session data behind.
   */
  lemma {:induction false} SessionRestoresZIndex(f: Frame, down: Pointer, moves: seq<Pointer>, v: Viewport)
    ensures Release(DragAll(Press(f, down), moves, v)).zIndex == f.zIndex
    ensures Release(DragAll(Press(f, down), moves, v)).dataset == map[]
  {
    DragAllKeepsSession(Press(f, down), moves, v);
  }

  /**
   * Every move of a session, however many came before it, puts the box at
   * its position at mouse-down plus the pointer's displacement since then,
   * clamped.
   */
  lemma {:induction false} DragFollowsPointer(f: Frame, down: Pointer, moves: seq<Pointer>, p: Pointer, v: Viewport)
    ensures Drag(DragAll(Press(f, down), moves, v), p, v).top == Clamp(f.top + (p.clientY - down.clientY), f.height, v.innerHeight)
    ensures Drag(DragAll(Press(f, down), moves, v), p, v).left == Clamp(f.left + (p.clientX - down.clientX), f.width, v.innerWidth)
  {
    var g := DragAll(Press(f, down), moves, v);
    DragAllKeepsSession(Press(f, down), moves, v);
    assert p.clientY + (f.top - down.clientY) == f.top + (p.clientY - down.clientY);
    assert p.clientX + (f.left - down.clientX) == f.left + (p.clientX - down.clientX);
  }

  /** Every handler keeps an active session's saved numbers readable. */
  lemma HandlersKeepConsistent(f: Frame, p: Pointer, v: Viewport)
    requires Consistent(f)
    ensures Consistent(Press(f, p)) && Consistent(Drag(f, p, v)) && Consistent(Release(f))
  {
  }

  /**
   * A second mouse-move at the same pointer, or a second mouse-up, changes
   * nothing.
   */
  lemma RepeatedEventsHarmless(f: Frame, p: Pointer, v: Viewport)
    ensures Drag(Drag(f, p, v), p, v) == Drag(f, p, v)
    ensures Release(Release(f)) == Release(f)
  {
  }

  /** A box at (50, 50) pressed at (100, 100) and moved to (120, 90) lands at left 70, top 40. */
  lemma MoveExample()
    ensures var f := Frame(map[], 10000, 50, 50, 300, 400);
      var g := Drag(Press(f, Pointer(100, 100)), Pointer(120, 90), Viewport(1280, 800));
      g.left == 70 && g.top == 40
  {
    PressThenDrag(Frame(map[], 10000, 50, 50, 300, 400), Pointer(100, 100), Pointer(120, 90), Viewport(1280, 800));
  }

  /**
   * The move handlers of one box, with the box's style position and z-index
   * and its title bar, whose dataset holds the session. The box's size is
   * fixed: nothing in the widget changes it.
   */
  class BoxFrame {
    const titleBar: Elements.HtmlElement
    var zIndex: int
    var top: int
    var left: int
    const height: nat
    const width: nat

    ghost predicate Valid()
      reads this, titleBar
    {
      titleBar.dataset.Some? && Consistent(State())
    }

    function State(): Frame
      reads this, titleBar
      requires titleBar.dataset.Some?
    {
      Frame(titleBar.dataset.value, zIndex, top, left, height, width)
    }

    /** A box laid out at (`top`, `left`) with the given size and z-index, no session yet. */
    constructor (zIndex: int, top: int, left: int, height: nat, width: nat)
      ensures Valid() && fresh(titleBar)
      ensures State() == Frame(map[], zIndex, top, left, height, width)
    {
      titleBar := new Elements.HtmlElement(Some(map[]));
      this.zIndex, this.top, this.left := zIndex, top, left;
      this.height, this.width := height, width;
    }

    /** Mouse-down on the title bar. */
    method OnDown(p: Pointer)
      requires Valid()
      modifies this, titleBar
      ensures Valid()
      ensures State() == Press(old(State()), p)
    {
      var data := titleBar.dataset.value;
      data := data["zIndex" := DecimalString(zIndex)];
      data := data["diffTop" := DecimalString(top - p.clientY)];
      data := data["diffLeft" := DecimalString(left - p.clientX)];
      data := data["active" := "true"];
      titleBar.dataset := Some(data);
      zIndex := RaisedZIndex;
    }

    /**
     * Mouse-down on the resize handle: it writes the same session fields of
     * the title bar, so it starts a move; the box's size stays as it is.
     */
    method OnResizeHandleDown(p: Pointer)
      requires Valid()
      modifies this, titleBar
      ensures Valid()
      ensures State() == Press(old(State()), p)
    {
      var data := titleBar.dataset.value;
      data := data["zIndex" := DecimalString(zIndex)];
      data := data["diffTop" := DecimalString(top - p.clientY)];
      data := data["diffLeft" := DecimalString(left - p.clientX)];
      data := data["active" := "true"];
      titleBar.dataset := Some(data);
      zIndex := RaisedZIndex;
    }

    /** Mouse-move anywhere in the window. */
    method OnMove(p: Pointer, v: Viewport)
      requires Valid()
      modifies this
      ensures Valid()
      ensures State() == Drag(old(State()), p, v)
    {
      var data := titleBar.dataset.value;
      if !("active" in data && data["active"] == "true") {
        return;
      }
      var diffTop := Number(data, "diffTop");
      var diffLeft := Number(data, "diffLeft");
      if diffTop.Some? {
        var finalTop := p.clientY + diffTop.value;
        if finalTop < 0 {
          finalTop := 0;
        }
        if finalTop + height > v.innerHeight {
          finalTop := v.innerHeight - height;
        }
        top := finalTop;
      }
      if diffLeft.Some? {
        var finalLeft := p.clientX + diffLeft.value;
        if finalLeft < 0 {
          finalLeft := 0;
        }
        if finalLeft + width > v.innerWidth {
          finalLeft := v.innerWidth - width;
        }
        left := finalLeft;
      }
    }

    /** Mouse-up anywhere in the window. */
    method OnUp()
      requires Valid()
      modifies this, titleBar
      ensures Valid()
      ensures State() == Release(old(State()))
    {
      var saved := Number(titleBar.dataset.value, "zIndex");
      if saved.Some? {
        zIndex := saved.value;
      }
      var _ := Elements.ClearDataset(titleBar);
    }
  }
}

=== FILE: options.dfy ===
/**
 * What `create` does with its options before it builds a box: the `||`
 * defaults, and the action bar's buttons, whose descriptors it rewrites in
 * place (a default href, an array class joined with spaces) before it makes
 * one link per descriptor.
 */
module Options {
  import opened JsValues
  import opened Elements

  const DefaultHeight := 480
  const DefaultWidth := 680
  const VoidHref := "javascript:void(0);"
  const ButtonClass := "cBox-button"
  const CloseClass := "cBox-close"

  /** The options `create` reads; an option the caller left out is `Undefined`. */
  datatype Options = Options(movable: Value, scalable: Value, height: Value, width: Value)

  /**
   * The defaults `create` applies: `movable || true` and `scalable || true`,
   * `height || 480`, `width || 680`. A falsy value (0, "", false, null,
   * undefined) takes the default; any other value is kept as given.
   */
  function Resolve(o: Options): (r: Options)
    ensures Truthy(r.movable) && Truthy(r.scalable)
    ensures Truthy(r.height) && Truthy(r.width)
    ensures Truthy(o.height) ==> r.height == o.height
    ensures !Truthy(o.height) ==> r.height == Num(DefaultHeight)
    ensures Truthy(o.width) ==> r.width == o.width
    ensures !Truthy(o.width) ==> r.width == Num(DefaultWidth)
  {
    Options(Or(o.movable, Bool(true)), Or(o.scalable, Bool(true)),
            Or(o.height, Num(DefaultHeight)), Or(o.width, Num(DefaultWidth)))
  }

  /** Resolving resolved options changes nothing. */
  lemma ResolveIdempotent(o: Options)
    ensures Resolve(Resolve(o)) == Resolve(o)
  {
  }

  /** One entry of `options.buttons`: the link text, href and extra class. */
  datatype Button = Button(text: Value, href: Value, cls: Value)

  /** A link in the action bar: the anchor element and the markup assigned to its `innerHTML`. */
  datatype Link = Link(anchor: Element, text: string)

  /**
   * The text an assignment to `innerHTML` takes from a value: null becomes
   * the empty string, anything else its ToString.
   */
  function MarkupText(v: Value): string {
    if v.Null? then "" else ToStr(v)
  }

  /**
   * A descriptor after the loop has rewritten it: a falsy href becomes
   * `javascript:void(0);`, an array class becomes its items joined with ' '.
   */
  function Normalise(b: Button): (r: Button)
    ensures r.text == b.text
    ensures Truthy(r.href) && (Truthy(b.href) ==> r.href == b.href)
    ensures !Truthy(b.href) ==> r.href == Str(VoidHref)
    ensures !r.cls.List?
    ensures !b.cls.List? ==> r.cls == b.cls
  {
    Button(b.text, Or(b.href, Str(VoidHref)), if b.cls.List? then Str(Join(b.cls.items, ' ')) else b.cls)
  }

  /** `'cBox-button' + tmpClass`: the extra class follows a space unless it is null or undefined. */
  function ClassText(b: Button): string {
    ButtonClass + if Nullish(b.cls) then "" else " " + ToStr(b.cls)
  }

  /** The link made for a rewritten descriptor. */
  function LinkFor(b: Button): Link {
    Link(Element("a", map["class" := ClassText(b), "href" := AttributeText(b.href)]), MarkupText(b.text))
  }

  /** The built-in Close link every box gets first. */
  const CloseLink := Link(Element("a", map["class" := ButtonClass + " " + CloseClass, "href" := VoidHref]), "Close")

  /** The Close link `create` builds with `createElement` before the caller's buttons. */
  method MakeCloseLink() returns (l: Link)
    ensures l == CloseLink
  {
    var props := map["class" := Str(ButtonClass + " " + CloseClass), "href" := Str(VoidHref)];
    assert !Nullish(props["class"]) && !Nullish(props["href"]);
    var a := CreateElement(Str("a"), Some(props));
    assert a.element.attributes == CloseLink.anchor.attributes;
    l := Link(a.element, "Close");
  }

  /**
   * The classes a button ends up with: "cBox-button" alone when it gave none,
   * "cBox-button" followed by its classes when it gave an array of them, and
   * the link then carries the classes as separate space-separated words.
   * Its markup is the button's text, empty for a null text.
   */
  lemma ButtonClasses(b: Button)
    ensures Nullish(b.cls) ==> LinkFor(Normalise(b)).anchor.attributes["class"] == ButtonClass
    ensures b.cls.List? ==>
      LinkFor(Normalise(b)).anchor.attributes["class"] == ButtonClass + " " + Join(b.cls.items, ' ')
    ensures b.cls.List? && |b.cls.items| > 0 && (forall i :: 0 <= i < |b.cls.items| ==> ' ' !in b.cls.items[i]) ==>
      Split(LinkFor(Normalise(b)).anchor.attributes["class"], ' ') == [ButtonClass] + b.cls.items
    ensures !Truthy(b.href) ==> LinkFor(Normalise(b)).anchor.attributes["href"] == VoidHref
    ensures b.text.Null? ==> LinkFor(Normalise(b)).text == ""
    ensures b.text.Str? ==> LinkFor(Normalise(b)).text == b.text.s
  {
    if b.cls.List? && |b.cls.items| > 0 && (forall i :: 0 <= i < |b.cls.items| ==> ' ' !in b.cls.items[i]) {
      var words := [ButtonClass] + b.cls.items;
      assert words[1..] == b.cls.items;
      assert Join(words, ' ') == ButtonClass + " " + Join(b.cls.items, ' ');
      SplitJoin(words, ' ');
    }
  }

  /**
   * The loop over `options.buttons`: rewrites each descriptor in place and
   * makes its link with `createElement`, in order.
   */
  method BuildButtons(buttons: array<Button>) returns (links: seq<Link>)
    modifies buttons
    ensures forall i :: 0 <= i < buttons.Length ==> buttons[i] == Normalise(old(buttons[i]))
    ensures |links| == buttons.Length
    ensures forall i :: 0 <= i < |links| ==> links[i] == LinkFor(buttons[i])
  {
    links := [];
    var i := 0;
    while i < buttons.Length
      invariant 0 <= i <= buttons.Length
      invariant |links| == i
      invariant forall j :: 0 <= j < i ==> buttons[j] == Normalise(old(buttons[j]))
      invariant forall j :: i <= j < buttons.Length ==> buttons[j] == old(buttons[j])
      invariant forall j :: 0 <= j < i ==> links[j] == LinkFor(buttons[j])
    {
      var b := buttons[i];
      b := b.(href := Or(b.href, Str(VoidHref)));
      var tmpClass := "";
      if !Nullish(b.cls) {
        if b.cls.List? {
          b := b.(cls := Str(Join(b.cls.items, ' ')));
        }
        tmpClass := " " + ToStr(b.cls);
      }
      buttons[i] := b;
      var props := map["class" := Str(ButtonClass + tmpClass), "href" := b.href];
      assert !Nullish(props["class"]) && !Nullish(props["href"]);
      var a := CreateElement(Str("a"), Some(props));
      links := links + [Link(a.element, MarkupText(b.text))];
      i := i + 1;
    }
  }
}

=== FILE: registry.dfy ===
/**
 * The manager behind ContentBox: the box containers in the document (what
 * `manager.boxes()` returns, in document order), the current box, and the
 * instance's `box`, the record `create` made last. `create` numbers a box by
 * the count of boxes already there and makes its record current; `close`
 * removes a box's container and, with the defects of the code corrected,
 * picks a new current container with `setCurrent()` when that box was
 * current. The code as written is modelled beside the corrected version.
 *
 * Each record carries a handle for its container element, standing for the
 * element's identity in the document.
 */
module Registry {
  import opened JsValues
  import opened Elements
  import opened Options

  /** The z-index of a box numbered 0; box n starts at this plus n. */
  const BaseZIndex := 10000

  /** The record `create` keeps in `this.box`. */
  datatype Box = Box(id: int, zIndex: int, height: Value, width: Value, element: nat)

  /**
   * What `manager.current` holds: the record `create` stored, or the
   * container element `setCurrent` took from the collection. Either belongs
   * to one box, `box`.
   */
  datatype Current = Record(box: Box) | Container(box: Box)

  /** The manager's state, plus the next fresh element handle. */
  datatype Registry = Registry(boxes: seq<Box>, current: Option<Current>, nextElement: nat)

  const Empty := Registry([], None, 0)

  /** No two live boxes share a container element. */
  predicate Distinct(s: seq<Box>) {
    forall i, j :: 0 <= i < j < |s| ==> s[i].element != s[j].element
  }

  /**
   * The manager's invariant: `current` is null exactly when there are no
   * boxes and otherwise belongs to one of them; every box is its own element,
   * and stacks at 10000 plus its number.
   */
  predicate WellFormed(r: Registry) {
    && (r.current.None? <==> r.boxes == [])
    && (r.current.Some? ==> r.current.value.box in r.boxes)
    && Distinct(r.boxes)
    && (forall i :: 0 <= i < |r.boxes| ==>
          r.boxes[i].element < r.nextElement && 0 <= r.boxes[i].id && r.boxes[i].zIndex == BaseZIndex + r.boxes[i].id)
  }

  /** Every box is numbered by its position: no box before it was closed. */
  predicate IdsArePositions(s: seq<Box>) {
    forall i :: 0 <= i < |s| ==> s[i].id == i
  }

  // ---------------------------------------------------------------------------
  // The `.id` that `close` compares

  /** The id attribute `create` gives the container of a box numbered `n`: `'cBox-' + n`. */
  function ContainerId(n: int): string {
    "cBox-" + DecimalString(n)
  }

  /** `.id` of what `current` holds: the record's number, or the container's id text. */
  function CurrentId(c: Current): Value {
    match c
    case Record(b) => Num(b.id)
    case Container(b) => Str(ContainerId(b.id))
  }

  /** `n == v` under JavaScript's loose equality, for a number `n` on the left. */
  predicate LooseEqualsNumber(n: int, v: Value) {
    match v
    case Undefined => false
    case Null => false
    case Bool(b) => n == (if b then 1 else 0)
    case Num(m) => n == m
    case Str(s) => ParseNumber(s) == Some(n)
    case List(items) => ParseNumber(Join(items, ',')) == Some(n)
    case Obj => false
  }

  /**
   * A box number never loosely equals a container's id: `'cBox-…'` reads as
   * NaN. A record's number equals exactly the same number.
   */
  lemma CurrentIdComparison(n: int, c: Current)
    ensures c.Container? ==> !LooseEqualsNumber(n, CurrentId(c))
    ensures c.Record? ==> (LooseEqualsNumber(n, CurrentId(c)) <==> n == c.box.id)
  {
    if c.Container? {
      var s := ContainerId(c.box.id);
      assert s[0] == 'c' && !IsDigit(s[0]);
    }
  }

  /** The test `close` means to make: does `current` belong to the box `target`? */
  predicate BelongsTo(c: Current, target: Box) {
    c.box.element == target.element
  }

  // ---------------------------------------------------------------------------
  // setCurrent

  /**
   * The container `manager.setCurrent(id)` picks from the collection
   * `boxes()` returns; `id` is `None` when the caller passes none. `id || null`
   * turns 0 into "no id", and a number indexes the collection by position.
   */
  function SelectCurrent(boxes: seq<Box>, id: Option<int>): (r: Option<Box>)
    ensures r.None? <==> |boxes| == 0
    ensures r.Some? ==> r.value in boxes
    ensures |boxes| > 0 && id.Some? && id.value != 0 && 0 <= id.value < |boxes| ==> r == Some(boxes[id.value])
    ensures |boxes| > 0 && (id.None? || id.value == 0 || id.value < 0 || |boxes| <= id.value) ==>
      r == Some(boxes[|boxes| - 1])
  {
    if |boxes| <= 0 then None
    else
      var key := if id.Some? && id.value != 0 then id else None;
      if key.Some? && 0 <= key.value < |boxes| then Some(boxes[key.value]) else Some(boxes[|boxes| - 1])
  }

  /** What `setCurrent` leaves in `current`: the container it picked, or null. */
  function Stored(picked: Option<Box>): Option<Current> {
    if picked.Some? then Some(Container(picked.value)) else None
  }

  /**
   * `setCurrent` as written: `this.boxes` is the function itself, so
   * `this.boxes.length` is its parameter count, 0, and the first test always
   * holds: `current` becomes null whatever the document holds. The rest of
   * the function is never reached.
   */
  function SelectCurrentAsWritten(boxes: seq<Box>, id: Option<int>): (r: Option<Box>)
    ensures r == None
  {
    // The test `this.boxes.length <= 0` is `0 <= 0`, so the collection is
    // never consulted.
    None
  }

  /**
   * As written, `setCurrent` breaks the manager's invariant whenever a box
   * is open: `current` becomes null beside a live container. Corrected, it
   * keeps the invariant.
   */
  lemma SetCurrentAndInvariant(r: Registry, id: Option<int>)
    requires WellFormed(r)
    ensures r.boxes != [] ==> !WellFormed(r.(current := Stored(SelectCurrentAsWritten(r.boxes, id))))
    ensures WellFormed(r.(current := Stored(SelectCurrent(r.boxes, id))))
  {
  }

  // ---------------------------------------------------------------------------
  // create

  /** The box `create` makes: numbered by the count of boxes, stacked at 10000 plus that count. */
  function NewBox(r: Registry, o: Options): (b: Box)
    ensures b.id == |r.boxes| && b.zIndex == BaseZIndex + |r.boxes|
    ensures b.height == Resolve(o).height && b.width == Resolve(o).width
    ensures WellFormed(r) ==> b !in r.boxes
  {
    Box(|r.boxes|, BaseZIndex + |r.boxes|, Resolve(o).height, Resolve(o).width, r.nextElement)
  }

  /** The manager after `create`: the new container is appended and the new box's record is current. */
  function AfterCreate(r: Registry, o: Options): (r': Registry)
    ensures r'.boxes == r.boxes + [NewBox(r, o)]
    ensures r'.current == Some(Record(NewBox(r, o)))
  {
    Registry(r.boxes + [NewBox(r, o)], Some(Record(NewBox(r, o))), r.nextElement + 1)
  }

  lemma CreatePreservesWellFormed(r: Registry, o: Options)
    requires WellFormed(r)
    ensures WellFormed(AfterCreate(r, o))
  {
    var s := AfterCreate(r, o).boxes;
    forall i, j | 0 <= i < j < |s| ensures s[i].element != s[j].element {
      if j == |s| - 1 {
        assert s[i] == r.boxes[i];
      } else {
        assert s[i] == r.boxes[i] && s[j] == r.boxes[j];
      }
    }
  }

  /**
   * While no box has been closed ahead of a later one, every box is numbered
   * by its position, so a new box's number is unused and it stacks above
   * every box already there.
   */
  lemma CreateStacksOnTop(r: Registry, o: Options)
    requires WellFormed(r) && IdsArePositions(r.boxes)
    ensures IdsArePositions(AfterCreate(r, o).boxes)
    ensures forall x :: x in r.boxes ==> x.id < NewBox(r, o).id && x.zIndex < NewBox(r, o).zIndex
  {
    forall x | x in r.boxes ensures x.id < NewBox(r, o).id && x.zIndex < NewBox(r, o).zIndex {
      var i :| 0 <= i < |r.boxes| && r.boxes[i] == x;
    }
  }

  /**
   * `create` as written reads `existingBoxes.length` on the uncalled
   * function `boxes`, which is 0: every box is numbered 0 and stacked at 10000.
   */
  function NewBoxAsWritten(r: Registry, o: Options): (b: Box)
    ensures b.id == 0 && b.zIndex == BaseZIndex
  {
    var length := 0;
    Box(length, BaseZIndex + length, Resolve(o).height, Resolve(o).width, r.nextElement)
  }

  /** The manager after `create` as written: the container of a box numbered 0 is appended and its record is current. */
  function AfterCreateAsWritten(r: Registry, o: Options): (r': Registry)
    ensures r'.boxes == r.boxes + [NewBoxAsWritten(r, o)]
    ensures r'.current == Some(Record(NewBoxAsWritten(r, o)))
    ensures r'.boxes[|r.boxes|].id == 0 && r'.boxes[|r.boxes|].zIndex == BaseZIndex
  {
    Registry(r.boxes + [NewBoxAsWritten(r, o)], Some(Record(NewBoxAsWritten(r, o))), r.nextElement + 1)
  }

  /**
   * As written, two boxes created one after the other share the number 0 and
   * the z-index 10000, and `setCurrent` then clears `current` although both
   * are in the document.
   */
  lemma AsWrittenBoxesCollide(o1: Options, o2: Options)
    ensures var r := AfterCreateAsWritten(AfterCreateAsWritten(Empty, o1), o2);
      |r.boxes| == 2 && r.boxes[0].id == r.boxes[1].id == 0 &&
      r.boxes[0].zIndex == r.boxes[1].zIndex &&
      SelectCurrentAsWritten(r.boxes, None) == None
  {
  }

  /** With the collection actually read, the same two boxes get 0 and 1, and `setCurrent` keeps one of them. */
  lemma TwoBoxesNumbered(o1: Options, o2: Options)
    ensures var r := AfterCreate(AfterCreate(Empty, o1), o2);
      WellFormed(r) && IdsArePositions(r.boxes) &&
      r.boxes[0].id == 0 && r.boxes[1].id == 1 && r.boxes[0].zIndex < r.boxes[1].zIndex &&
      SelectCurrent(r.boxes, None) == Some(r.boxes[1])
  {
    CreatePreservesWellFormed(Empty, o1);
    CreatePreservesWellFormed(AfterCreate(Empty, o1), o2);
  }

  // ---------------------------------------------------------------------------
  // close

  /** The tail of a list of distinct containers is distinct, and does not hold its head. */
  lemma DistinctTail(s: seq<Box>)
    requires |s| > 0 && Distinct(s)
    ensures Distinct(s[1..]) && s[0] !in s[1..]
  {
    forall i, j | 0 <= i < j < |s[1..]| ensures s[1..][i].element != s[1..][j].element {
      assert s[1..][i] == s[i + 1] && s[1..][j] == s[j + 1];
    }
  }

  /** Removing position `k` of the tail and putting the head back removes position `k + 1`. */
  lemma RemoveBehindHead(s: seq<Box>, k: int, rest: seq<Box>)
    requires 0 <= k < |s| - 1 && rest == s[1..][..k] + s[1..][k + 1..]
    ensures [s[0]] + rest == s[..k + 1] + s[k + 2..]
  {
    assert s[1..][..k] == s[1..k + 1];
    assert s[1..][k + 1..] == s[k + 2..];
    assert s[..k + 1] == [s[0]] + s[1..k + 1];
  }

  /** Putting the head of distinct containers back before distinct boxes drawn from its tail keeps them distinct. */
  lemma ConsDistinct(s: seq<Box>, rest: seq<Box>)
    requires |s| > 0 && Distinct(s) && Distinct(rest)
    requires forall x :: x in rest ==> x in s[1..]
    ensures Distinct([s[0]] + rest)
  {
    forall i, j | 0 <= i < j < |[s[0]] + rest| ensures ([s[0]] + rest)[i].element != ([s[0]] + rest)[j].element {
      if i == 0 {
        var x := rest[j - 1];
        assert x in s[1..];
        var k :| 0 <= k < |s[1..]| && s[1..][k] == x;
        assert s[k + 1] == x;
      }
    }
  }

  /** Cutting one position out of the tail, behind a head that stays, cuts one position out of the whole. */
  lemma ConsRemoves(s: seq<Box>, b: Box, rest: seq<Box>)
    requires |s| > 0
    requires exists k :: 0 <= k < |s[1..]| && s[1..][k] == b && rest == s[1..][..k] + s[1..][k + 1..]
    ensures exists k :: 0 <= k < |s| && s[k] == b && [s[0]] + rest == s[..k] + s[k + 1..]
  {
    var k :| 0 <= k < |s[1..]| && s[1..][k] == b && rest == s[1..][..k] + s[1..][k + 1..];
    RemoveBehindHead(s, k, rest);
    assert s[k + 1] == b;
  }

  /**
   * `removeChild` of a box's container: the document without it, the other
   * containers in their order.
   */
  function Detach(s: seq<Box>, b: Box): (r: seq<Box>)
    ensures forall x :: x in r <==> x in s && x != b
    ensures Distinct(s) ==> Distinct(r)
    ensures b !in s ==> r == s
    ensures Distinct(s) && b in s ==> exists k :: 0 <= k < |s| && s[k] == b && r == s[..k] + s[k + 1..]
  {
    if s == [] then []
    else
      var rest := Detach(s[1..], b);
      if s[0] == b then
        assert Distinct(s) ==> rest == s[..0] + s[1..] by {
          if Distinct(s) {
            DistinctTail(s);
          }
        }
        rest
      else
        assert Distinct(s) ==> Distinct([s[0]] + rest) by {
          if Distinct(s) {
            DistinctTail(s);
            ConsDistinct(s, rest);
          }
        }
        assert b !in s ==> [s[0]] + rest == s;
        assert Distinct(s) && b in s ==> exists k :: 0 <= k < |s| && s[k] == b && [s[0]] + rest == s[..k] + s[k + 1..] by {
          if Distinct(s) && b in s {
            DistinctTail(s);
            ConsRemoves(s, b, rest);
          }
        }
        [s[0]] + rest
  }

  /** The outcome of `close`: the manager afterwards, and whether a TypeError was thrown. */
  datatype Closed = Closed(registry: Registry, threw: bool)

  /**
   * `close` on the object whose `box` is `target`, with the three defects
   * of the code corrected: `setCurrent` reads the collection, runs after the
   * container is removed, and is called when `current` belongs to the closed
   * box. Reading `.id` of a null current box throws, and so does removing a
   * container that is no longer in the document; neither changes anything.
   */
  function CloseStep(r: Registry, target: Box): (c: Closed)
    ensures c.threw <==> r.current.None? || target !in r.boxes
    ensures c.threw ==> c.registry == r
    ensures !c.threw ==> c.registry.boxes == Detach(r.boxes, target) && c.registry.nextElement == r.nextElement
    ensures !c.threw && BelongsTo(r.current.value, target) ==>
      c.registry.current == Stored(SelectCurrent(c.registry.boxes, None))
    ensures !c.threw && !BelongsTo(r.current.value, target) ==> c.registry.current == r.current
  {
    if r.current.None? || target !in r.boxes then Closed(r, true)
    else
      var rest := Detach(r.boxes, target);
      var current := if BelongsTo(r.current.value, target) then Stored(SelectCurrent(rest, None)) else r.current;
      Closed(Registry(rest, current, r.nextElement), false)
  }

  /**
   * Closing keeps the manager's invariant, with the other boxes in their
   * order; closing the current box makes the last remaining container
   * current, or null when none remain.
   */
  lemma ClosePreservesWellFormed(r: Registry, target: Box)
    requires WellFormed(r)
    ensures WellFormed(CloseStep(r, target).registry)
    ensures var c := CloseStep(r, target);
      !c.threw ==> exists k :: 0 <= k < |r.boxes| && r.boxes[k] == target && c.registry.boxes == r.boxes[..k] + r.boxes[k + 1..]
    ensures var c := CloseStep(r, target);
      !c.threw && r.current.value.box == target ==>
        c.registry.current == (if c.registry.boxes == [] then None else Some(Container(c.registry.boxes[|c.registry.boxes| - 1])))
  {
    var c := CloseStep(r, target);
    if !c.threw {
      var s := c.registry.boxes;
      forall i | 0 <= i < |s|
        ensures s[i].element < r.nextElement && 0 <= s[i].id && s[i].zIndex == BaseZIndex + s[i].id
      {
        assert s[i] in r.boxes;
        var k :| 0 <= k < |r.boxes| && r.boxes[k] == s[i];
      }
      var cur := r.current.value;
      if !BelongsTo(cur, target) {
        assert cur.box != target;
      }
    }
  }

  /**
   * `close` with `setCurrent` corrected but called, as in the code, before
   * the container is removed: its fallback to the last container can pick
   * the very box being closed.
   */
  function CloseBeforeRemoval(r: Registry, target: Box): (c: Closed)
    ensures c.threw <==> r.current.None? || target !in r.boxes
    ensures c.threw ==> c.registry.boxes == r.boxes
    ensures !c.threw ==> c.registry.boxes == Detach(r.boxes, target) && c.registry.nextElement == r.nextElement
    ensures r.current.Some? && !BelongsTo(r.current.value, target) ==> c.registry.current == r.current
    ensures r.current.Some? && BelongsTo(r.current.value, target) ==>
      c.registry.current == Stored(SelectCurrent(r.boxes, None))
  {
    if r.current.None? then Closed(r, true)
    else
      var current := if BelongsTo(r.current.value, target) then Stored(SelectCurrent(r.boxes, None)) else r.current;
      if target !in r.boxes then Closed(r.(current := current), true)
      else Closed(Registry(Detach(r.boxes, target), current, r.nextElement), false)
  }

  /**
   * Two boxes, the second current: closing it with the fallback picked
   * first leaves the closed box's container current although it is gone from
   * the document; picking it afterwards makes the first box current.
   */
  lemma CloseBeforeRemovalKeepsClosedBox()
    ensures var a := Box(0, BaseZIndex, Num(DefaultHeight), Num(DefaultWidth), 0);
      var b := Box(1, BaseZIndex + 1, Num(DefaultHeight), Num(DefaultWidth), 1);
      var r := Registry([a, b], Some(Record(b)), 2);
      WellFormed(r) &&
      CloseBeforeRemoval(r, b).registry.current == Some(Container(b)) &&
      b !in CloseBeforeRemoval(r, b).registry.boxes &&
      !WellFormed(CloseBeforeRemoval(r, b).registry) &&
      CloseStep(r, b).registry.current == Some(Container(a))
  {
    var a := Box(0, BaseZIndex, Num(DefaultHeight), Num(DefaultWidth), 0);
    var b := Box(1, BaseZIndex + 1, Num(DefaultHeight), Num(DefaultWidth), 1);
    assert Detach([a, b], b) == [a] by {
      assert [a, b][1..] == [b];
      assert Detach([b], b) == [];
    }
  }

  /**
   * `close` with `setCurrent` corrected and called after the removal, but
   * with the code's test `this.box.id == this.getCurrent().id`: a container
   * element picked by `setCurrent` never passes it.
   */
  function CloseComparingIds(r: Registry, target: Box): (c: Closed)
    ensures c.threw <==> r.current.None? || target !in r.boxes
    ensures !c.threw ==> c.registry.boxes == Detach(r.boxes, target)
    ensures r.current.Some? && r.current.value.Container? ==> c.registry.current == r.current
  {
    if r.current.None? || target !in r.boxes then Closed(r, true)
    else
      CurrentIdComparison(target.id, r.current.value);
      var rest := Detach(r.boxes, target);
      var current := if LooseEqualsNumber(target.id, CurrentId(r.current.value)) then Stored(SelectCurrent(rest, None)) else r.current;
      Closed(Registry(rest, current, r.nextElement), false)
  }

  /**
   * Create A, create B, close B, close A, with only the number-to-id test
   * left as written: the first close stores A's container as current, and
   * the second then keeps it current although no box is left. Comparing
   * elements instead leaves `current` null.
   */
  lemma IdComparisonStrandsCurrent(oa: Options, ob: Options)
    ensures var a := NewBox(Empty, oa);
      var r2 := AfterCreate(AfterCreate(Empty, oa), ob);
      var b := NewBox(AfterCreate(Empty, oa), ob);
      var c1 := CloseComparingIds(r2, b);
      var c2 := CloseComparingIds(c1.registry, a);
      !c1.threw && c1.registry.current == Some(Container(a)) &&
      !c2.threw && c2.registry.boxes == [] && c2.registry.current == Some(Container(a)) &&
      !WellFormed(c2.registry) &&
      CloseStep(CloseStep(r2, b).registry, a).registry == Registry([], None, 2)
  {
    var a := NewBox(Empty, oa);
    var b := NewBox(AfterCreate(Empty, oa), ob);
    assert [a, b][1..] == [b];
    assert Detach([b], b) == [];
    assert Detach([a, b], b) == [a];
    assert [a][1..] == [];
    assert Detach([a], a) == [];
    CurrentIdComparison(b.id, Record(b));
    CurrentIdComparison(a.id, Container(a));
  }

  /**
   * `close` as written: `getCurrent().id` on a null current throws; a
   * matching number calls `setCurrent()`, which as written clears `current`,
   * before the container is removed.
   */
  function CloseAsWritten(r: Registry, target: Box): (c: Closed)
    ensures c.threw <==> r.current.None? || target !in r.boxes
    ensures c.threw ==> c.registry.boxes == r.boxes
    ensures !c.threw ==> c.registry.boxes == Detach(r.boxes, target) && c.registry.nextElement == r.nextElement
    ensures r.current.Some? && !LooseEqualsNumber(target.id, CurrentId(r.current.value)) ==> c.registry.current == r.current
    ensures r.current.Some? && r.current.value.Container? ==> c.registry.current == r.current
    ensures r.current.Some? && r.current.value.Record? && r.current.value.box.id == target.id ==>
      c.registry.current == None
  {
    if r.current.None? then Closed(r, true)
    else
      CurrentIdComparison(target.id, r.current.value);
      var current := if LooseEqualsNumber(target.id, CurrentId(r.current.value)) then Stored(SelectCurrentAsWritten(r.boxes, None)) else r.current;
      if target !in r.boxes then Closed(r.(current := current), true)
      else Closed(Registry(Detach(r.boxes, target), current, r.nextElement), false)
  }

  /**
   * The code as written: create A, create B, close B through the instance,
   * then A's own Close button. Closing B clears `current`, so closing A then
   * throws at `getCurrent().id` and A's container stays in the document.
   */
  lemma AsWrittenCloseStrandsBox(oa: Options, ob: Options)
    ensures var a := NewBoxAsWritten(Empty, oa);
      var r2 := AfterCreateAsWritten(AfterCreateAsWritten(Empty, oa), ob);
      var b := NewBoxAsWritten(AfterCreateAsWritten(Empty, oa), ob);
      var c1 := CloseAsWritten(r2, b);
      var c2 := CloseAsWritten(c1.registry, a);
      !c1.threw && c1.registry.boxes == [a] && c1.registry.current == None &&
      c2.threw && c2.registry.boxes == [a]
  {
    var a := NewBoxAsWritten(Empty, oa);
    var b := NewBoxAsWritten(AfterCreateAsWritten(Empty, oa), ob);
    assert a != b;
    assert [a, b][1..] == [b];
    assert Detach([b], b) == [];
    assert Detach([a, b], b) == [a];
  }

  /**
   * Create A, create B, close through the instance (whose `box` is B), close
   * again: the first close removes B and makes A's container current; the
   * second still targets B, whose container is gone, so it throws and A stays.
   */
  lemma CreateCreateCloseClose(oa: Options, ob: Options)
    ensures var r1 := AfterCreate(Empty, oa);
      var a := NewBox(Empty, oa);
      var r2 := AfterCreate(r1, ob);
      var b := NewBox(r1, ob);
      var c1 := CloseStep(r2, b);
      var c2 := CloseStep(c1.registry, b);
      r2.current == Some(Record(b)) && |r2.boxes| == 2 &&
      !c1.threw && c1.registry.boxes == [a] && c1.registry.current == Some(Container(a)) &&
      c2.threw && c2.registry == c1.registry
  {
    var a := NewBox(Empty, oa);
    var b := NewBox(AfterCreate(Empty, oa), ob);
    assert [a, b][1..] == [b];
    assert Detach([b], b) == [];
  }

  /**
   * Numbers are counts, not a maximum: once an earlier box is closed (its
   * own Close button acts on that box), the next box gets the number of a
   * box still open.
   */
  lemma EarlyCloseReusesId(oa: Options, ob: Options, oc: Options)
    ensures var a := NewBox(Empty, oa);
      var r2 := AfterCreate(AfterCreate(Empty, oa), ob);
      var b := NewBox(AfterCreate(Empty, oa), ob);
      var c := CloseStep(r2, a);
      !c.threw && c.registry.boxes == [b] &&
      NewBox(c.registry, oc).id == b.id && NewBox(c.registry, oc).zIndex == b.zIndex
  {
    var a := NewBox(Empty, oa);
    var b := NewBox(AfterCreate(Empty, oa), ob);
    assert a != b;
    assert [a, b][1..] == [b];
    assert Detach([b], a) == [b];
  }

  // ---------------------------------------------------------------------------
  // The shared instance

  /**
   * The one ContentBox instance and its manager. `box` is the record of the
   * last `create` on the instance.
   */
  class ContentBox {
    var boxes: seq<Box>
    var current: Option<Current>
    var nextElement: nat
    var box: Option<Box>

    function State(): Registry
      reads this
    {
      Registry(boxes, current, nextElement)
    }

    ghost predicate Valid()
      reads this
    {
      WellFormed(State())
    }

    /** The first construction: an empty manager, then one `create` with the given options. */
    constructor (options: Options, buttons: array<Button>)
      modifies buttons
      ensures Valid()
      ensures State() == AfterCreate(Empty, options)
      ensures box == Some(NewBox(Empty, options))
      ensures forall i :: 0 <= i < buttons.Length ==> buttons[i] == Normalise(old(buttons[i]))
    {
      boxes, current, nextElement, box := [], None, 0, None;
      new;
      var _, _ := Create(options, buttons);
    }

    /** `manager.setCurrent(id)`: stores the container it picks, or null. */
    method SetCurrent(id: Option<int>)
      requires Valid()
      modifies this
      ensures Valid()
      ensures current == Stored(SelectCurrent(boxes, id))
      ensures boxes == old(boxes) && nextElement == old(nextElement) && box == old(box)
    {
      if |boxes| <= 0 {
        current := None;
        return;
      }
      var key := if id.Some? && id.value != 0 then id else None;
      if key.Some? && 0 <= key.value < |boxes| {
        current := Some(Container(boxes[key.value]));
      } else {
        current := Some(Container(boxes[|boxes| - 1]));
      }
    }

    /**
     * `create(options)`: numbers the box, builds its Close link and one link
     * per entry of `options.buttons` (rewriting those entries), appends the
     * container and makes the box's record current.
     */
    method Create(options: Options, buttons: array<Button>) returns (b: Box, links: seq<Link>)
      requires Valid()
      modifies this, buttons
      ensures Valid()
      ensures b == NewBox(old(State()), options)
      ensures State() == AfterCreate(old(State()), options)
      ensures box == Some(b)
      ensures forall i :: 0 <= i < buttons.Length ==> buttons[i] == Normalise(old(buttons[i]))
      ensures |links| == buttons.Length + 1 && links[0] == CloseLink
      ensures forall i :: 0 <= i < buttons.Length ==> links[i + 1] == LinkFor(buttons[i])
    {
      CreatePreservesWellFormed(State(), options);
      var n := |boxes|;
      var resolved := Resolve(options);
      b := Box(n, BaseZIndex + n, resolved.height, resolved.width, nextElement);
      var closeLink := MakeCloseLink();
      var rest := BuildButtons(buttons);
      links := [closeLink] + rest;
      boxes := boxes + [b];
      nextElement := nextElement + 1;
      current := Some(Record(b));
      box := Some(b);
    }

    /**
     * `close()` on the object whose `box` is `target`: reports whether a
     * TypeError was thrown. The container is removed before the fallback is
     * picked, and the test is whether `current` belongs to the closed box.
     */
    method Close(target: Box) returns (threw: bool)
      requires Valid()
      modifies this
      ensures Valid()
      ensures Closed(State(), threw) == CloseStep(old(State()), target)
      ensures box == old(box)
    {
      ClosePreservesWellFormed(State(), target);
      if current.None? || target !in boxes {
        return true;
      }
      var isCurrent := current.value.box.element == target.element;
      boxes := Detach(boxes, target);
      if isCurrent {
        current := Stored(SelectCurrent(boxes, None));
      }
      return false;
    }
  }
}
